=== FILE: README.md ===
# Rajasthan green-cover monitor: the decision layer

This project models, in Dafny, the local decision logic of a small
vegetation-monitoring application for the Jodhpur and Bikaner districts. The
application asks a remote imagery service for NDVI (Normalized Difference
Vegetation Index) statistics over two consecutive 7-day windows. It then
assembles a per-district result, decides on a week-over-week alert, and
presents the result in a command-line tool, a web dashboard, a demo generator
and an example workflow script.

The imagery service is a black box. Its reduced aggregate dictionaries
(`map<string, real>`, keyed by the reducer output names) and the image handles
are parameters of the model. Each Python dictionary of a result is a
datatype. Each statistic that may be `None` is an `Option<real>`. Dates are
integer day numbers, and a raised exception is the `Failure` arm of a
`Result`.

Seven places compute a week-over-week change percentage, with six
different guards on the division. Each is modelled as written:

- the alert block of `analyze_district` tests only the change for `None`.
  It divides by the previous mean without a guard, so a `None` or zero
  previous mean raises instead of suppressing the alert
  (`Monitor.AlertDecision`);
- the monitor's `print_summary` tests both values for `None`, so a zero
  previous mean still raises (`Monitor.SummaryChangePct`);
- the command-line tool's `quick_check` and `compare_districts` both test
  the truthiness of the previous mean (`Cli.CliChangePct`, used by
  `Cli.QuickLineFor` and `Cli.CompareDistricts`);
- the dashboard tests the truthiness of both values (`Dashboard.WeekChange`);
- the demo generator tests the truthiness of the previous value
  (`Demo.DemoPct`);
- the demo's `print_summary` divides with no guard at all. It is listed
  under "Left out".

Lemmas relate these guards to each other.

Modules, one per file: `Wrappers` (Option, Result), `Filters` (the
positions an order-preserving filter loop keeps), `Config` (static tables),
`Records` (the shared result record), `Monitor` (`vegetation_monitor.py`),
`History` (history file names and their order), `Cli` (`cli.py`),
`Dashboard` (`app.py`), `Demo` (`demo_mode.py`) and `Workflow`
(`complete_workflow.py`).

Several loops of the application visit a list in order and append the
elements that pass a test: the analysis loops, the glob, the history
loader and the trend loop. Each is stated through `Filters.Kept`, the
ascending list of the passing positions. The result has one element per
kept position, in that order, so these contracts fix the count, the order
and the contents, not just membership.

## Model

| member | source | states |
|---|---|---|
| Config.Districts | backend/config.py:6-18 | The two districts in table order. Every bounding box has min < max on both axes, every center lies strictly inside its own box, and no key repeats. |
| Config.Lookup | backend/vegetation_monitor.py:85-88 | A district is found exactly when its name is a configured key, and the entry found carries that key. |
| Config.Thresholds | backend/config.py:29-35 | The NDVI class thresholds strictly increase from no_vegetation to very_dense, within [-1, 1]. |
| Config.PixelAreaHectares | backend/config.py:25 | One pixel at the configured 10 m scale covers scale² / 10000 ha, which is 0.01 ha, the monitor's hard-coded factor. |
| Monitor.Windows | backend/vegetation_monitor.py:92-94 | The current window ends on the analysis day. The previous window ends where the current one starts. Both span the configured 7-day interval. |
| Monitor.WeeklyRunsTile | backend/vegetation_monitor.py:101-111 | The previous window of a run is the current window of the run one interval earlier. |
| Monitor.LossHectares | backend/vegetation_monitor.py:154-163 | Loss area × 10000 m² equals loss-pixel count × scale². The area is 0 when the aggregate key is absent and non-negative for a non-negative count. |
| Monitor.AlertDecision | backend/vegetation_monitor.py:196-207 | Raises exactly when a change is present and the previous mean is None (TypeError) or 0 (ZeroDivision). An alert exists iff the change is present and the percentage lies strictly outside [-5, 5]. It is triggered and carries that percentage; its type is loss iff pct < -5 and gain iff pct > 5. |
| Monitor.AlertExamples | backend/vegetation_monitor.py:201-204 | Exactly -5% gives no alert; 0.40 → -0.03 is a loss alert at -7.5%; +0.01 gives none; no change never divides. |
| Monitor.AnalyzeDistrict | backend/vegetation_monitor.py:85-209 | An unknown name fails with UnknownDistrict. Otherwise the call succeeds iff the alert division does not raise. On success every statistic is its aggregate or None when the key is absent (never 0), the windows chain, the loss area is pixels/100, images are attached, and the alert follows the strict 5% rule with type `vegetation_loss` for a negative percentage and `vegetation_gain` otherwise. |
| Monitor.SummaryChangePct | backend/vegetation_monitor.py:228-231 | Raises only for a present change over a previous mean of exactly 0. A percentage is shown iff both values are present and the previous mean is non-zero, and percentage × prev = change × 100. |
| Monitor.SummaryAgreesWithAlert | backend/vegetation_monitor.py:197-230 | On any result the analysis returns, the summary's change percentage never raises, shows a percentage iff a change is present, and shows the alert's percentage when there is an alert. |
| Monitor.Export | backend/vegetation_monitor.py:263-268 | Same length and district names. Each record has no images, and every other field is unchanged. |
| Monitor.ExportIdempotent | backend/vegetation_monitor.py:266-267 | Exporting twice equals exporting once, and records without images are exported unchanged. |
| Monitor.Successes | backend/cli.py:80-86 | The results dictionary in insertion order: one entry per name whose analysis succeeded, at the ascending positions of those names in `names`, each with its own result. Failed districts are skipped, and no name repeats. |
| Monitor.AnalyzeAll | backend/vegetation_monitor.py:251-257 | The analysis loop builds exactly that dictionary, district by district. |
| Monitor.MonitorMain | backend/vegetation_monitor.py:243-272 | The saved records are exactly the districts of Jodhpur and Bikaner whose analysis succeeded: one per succeeding district, no district twice, Jodhpur before Bikaner, each equal to its analysis without images. |
| Records.Find | examples/complete_workflow.py:77-78 | Indexing a results dictionary finds a result iff the name is a key, and the result found is stored under that name. |
| History.AnalysisFiles | frontend/app.py:73 | The glob-and-sort step: the files are the glob's output rearranged (the same multiset, so each matching entry as often as the glob yields it), sorted in descending Python string order. Each is a history file name. |
| History.AnalysisFilesCount | backend/cli.py:140-141 | The number of history files, the `n` of "n − 10 more", is the number of matching directory entries. |
| History.SortedDescUnique | backend/cli.py:123 | Two descending sequences of the same names are equal, so the descending sort has exactly one possible result. |
| History.MatchingFilesCounts | backend/cli.py:123 | The glob yields each matching entry as often as the directory holds it, and no other entry. |
| History.AnalysisFilesOrderFree | frontend/app.py:73 | Two directory listings of the same entries, in any order, give the same newest-first history files. |
| History.NoAnalysisFiles | backend/cli.py:125-127 | There are no history files exactly when no directory entry matches `analysis_*.json`. |
| History.MatchingFiles | backend/cli.py:123 | The glob keeps the matching entries in directory order: one file per matching position, at the ascending positions of the matching entries. |
| History.MatchingFilesMembers | backend/cli.py:123 | An entry is kept by the glob exactly when it is in the directory and matches `analysis_*.json`. |
| History.SortDescSorted | backend/cli.py:123 | `sorted(..., reverse=True)`: the insertion sort's output is in descending string order (and, by its contract, a permutation of its input). |
| History.LexLeTotal | backend/cli.py:123 | Python's string order is total, which the descending sort relies on. |
| History.AfterFirstUnderscore | backend/cli.py:133 | `split('_', 1)[1]` is absent iff there is no underscore. Otherwise it is the text after the first underscore. |
| History.Timestamp | frontend/app.py:77 | A history file's timestamp is exactly the text between `analysis_` and `.json`. |
| History.SavedNameRoundTrip | backend/vegetation_monitor.py:270 | A file saved as `analysis_<ts>.json` matches the history pattern, and its timestamp reads back as `ts`. |
| History.DemoFilesNotListed | demo_mode.py:133-134 | A file named `demo_analysis_<ts>.json` never matches the history pattern `analysis_*.json`. |
| Cli.FormatAlert | backend/cli.py:19-28 | "No alerts" iff the alert is absent or not triggered. The loss line iff triggered with type `vegetation_loss`, and the increase line for any other type. Both show the magnitude abs(change_percentage). |
| Cli.FormatAlertOfAnalysis | backend/cli.py:21-28 | On a fresh analysis the loss line appears iff the change is below -5%, and the increase line iff it is above 5%. |
| Cli.CliChangePct | backend/cli.py:48 | Zero when the previous mean is None or 0.0. With a truthy previous mean it succeeds iff the change is present, with percentage × prev = change × 100. |
| Cli.CliPctAgreesWithAlert | backend/cli.py:103 | Where the monitor alerts, the tool shows the alert's percentage. Where the monitor's division by a zero previous mean raises, the tool shows 0. |
| Cli.QuickCheckTargets | backend/cli.py:35 | A non-empty district name is checked alone, whether or not it is configured. With None or "", every configured district is checked once, in the order of the configuration table, and each passes the configuration lookup. |
| Cli.DefaultTargetsKnown | backend/vegetation_monitor.py:85-86 | The default quick check never raises "Unknown district". An analysis of a default target can fail only on the previous-week mean (TypeError or ZeroDivision). |
| Cli.QuickLineFor | backend/cli.py:41-56 | A district's full block is printed iff its analysis, its percentage and its NDVI formatting all succeed. It then shows exactly those values and the `format_alert` line. Otherwise the district gets the error line. The `📍 district:` header comes before that line iff only the NDVI formatting failed. |
| Cli.QuickCheck | backend/cli.py:40-56 | Exactly one block per target, in order. |
| Cli.QuickCheckIsolated | backend/cli.py:40-56 | A failing district does not stop the others: block i is named after target i, is a report exactly when that target's analysis, percentage and current mean are usable, and depends on no other target's outcome. |
| Cli.CompareDistricts | backend/cli.py:73-112 | "Could not compare" iff fewer than two districts succeeded. It raises iff some successful result cannot be printed. Otherwise there is one row per successful district, in order, with its mean, its change percentage under the `if prev` guard (cli.py:103) and its alert line. |
| Cli.ListHistory | backend/cli.py:115-141 | Distinguishes no directory from no files. Otherwise it shows min(10, n) files, newest first, numbered from 1, each with the timestamp after `analysis_`. It adds "n − 10 more" iff n > 10. |
| Dashboard.DensityBucket | frontend/app.py:190-193 | Dense iff median > 0.6, Moderate iff 0.4 < m ≤ 0.6, Sparse iff 0.2 < m ≤ 0.4, and Low iff the median is None or ≤ 0.2. |
| Dashboard.DensityFollowsThresholds | frontend/app.py:191-193 | The class boundaries are the configured sparse, moderate and dense thresholds, and a larger median never gets a lower class. |
| Dashboard.WeekChange | frontend/app.py:170-180 | Shown iff both the change and the previous mean are truthy. Then value × prev = change × 100, and the value is non-zero. |
| Dashboard.WeekChangeVersusCli | frontend/app.py:172 | Where the dashboard shows a week change, the tool shows the same value. An exact zero change is N/A on the dashboard but 0% in the tool. |
| Dashboard.AlertBox | frontend/app.py:200-218 | A box iff the alert is present and triggered. Danger style iff the type is `vegetation_loss`, with magnitude abs(change_percentage). |
| Dashboard.AlertBoxMatchesCli | frontend/app.py:204 | The box and the tool's alert line always agree in kind and magnitude. |
| Dashboard.TrendPoints | frontend/app.py:121-130 | One point per usable record of `reversed(history)`, in that order: point m comes from record n−1−ix[m], where ix lists the usable positions of the reversed history in ascending order. So the record index falls as the point index rises, and no usable record is missed. |
| Dashboard.TrendEmpty | frontend/app.py:132-133 | There are no points exactly when no record is usable. |
| Dashboard.TrendFromUsable | frontend/app.py:121-130 | There are no more points than records, and every point comes from a usable record. |
| Dashboard.TrendEndsWithNewest | frontend/app.py:121-130 | The newest record, if usable, gives the last point. |
| Dashboard.CreateTrendChart | frontend/app.py:113-133 | None for an empty history or when no record is usable. Otherwise dates and values have equal length and are index-aligned with the oldest-first points. |
| Dashboard.LoadFiles | frontend/app.py:73-80 | One record per readable file, in file order: record m is file ix[m] with its timestamp added, where ix lists the readable positions in ascending order. Unreadable files are skipped and nothing else is lost. |
| Dashboard.LoadFilesAllReadable | frontend/app.py:73-78 | With every file readable, the records follow the files one for one. |
| Dashboard.LoadHistoricalData | frontend/app.py:66-82 | No directory gives an empty list. Otherwise there is one record per readable history file, in newest-first name order, each stamped with the text between `analysis_` and `.json`. |
| Dashboard.LoadedFromEntries | frontend/app.py:73-78 | Every loaded record comes from a readable `analysis_*.json` entry of the directory and carries that file's timestamp. With every entry readable, the records follow the newest-first files one for one. |
| Demo.DemoDistricts | demo_mode.py:19-28 | Two simulated districts with base NDVI between 0.38 and 0.45. |
| Demo.Draw | demo_mode.py:34-48 | change = current − previous and current = base ± 0.05. In the loss scenario previous > current, change ∈ [-0.08, -0.03] and loss ∈ [50, 200]. Otherwise change ∈ [-0.02, 0.02] and loss ∈ [5, 25]. Deviation ∈ [0.08, 0.15]. |
| Demo.DemoPct | demo_mode.py:50 | Zero for a falsy previous value. Otherwise pct × previous = change × 100. |
| Demo.GenerateDistrict | demo_mode.py:32-88 | p10 < median < p90, change_min < change < change_max, and the windows chain with 7-day spans. The loss area follows the scenario ranges. An alert exists iff |pct| > 5 (strict), with type `vegetation_loss` if pct < 0 and `vegetation_gain` otherwise. |
| Demo.GenerateDemoData | demo_mode.py:12-90 | One result per simulated district, Jodhpur then Bikaner, each generated from its own draws. |
| Demo.DemoPreviousPositive | demo_mode.py:50 | The simulated previous mean is always positive, so the percentage always divides. |
| Demo.LossScenarioAlwaysAlerts | demo_mode.py:37-88 | In the loss scenario an alert is always raised, and it is of type `vegetation_loss`. |
| Demo.NormalScenarioCanAlert | demo_mode.py:36-50 | The "normal" scenario can raise an alert too: Bikaner at its lowest draw reads as a gain of about 6.45%. |
| Workflow.AnalyzeDistricts | examples/complete_workflow.py:52-65 | Districts whose analysis raises are omitted. Every other one is kept, once, with its own result. |
| Workflow.CompareNdvi | examples/complete_workflow.py:76-88 | Runs only with exactly two results. It raises iff a district is missing or a mean is None. Jodhpur wins iff its mean is strictly larger. The difference is |j − b| ≥ 0, so a tie goes to Bikaner with difference 0. |
| Workflow.AlertsFound | examples/complete_workflow.py:94-105 | True iff some record has a triggered alert. |
| Workflow.TotalLoss | examples/complete_workflow.py:133-136 | The sum of loss areas, non-negative when every area is. |
| Workflow.TotalLossBoundsEach | examples/complete_workflow.py:133-136 | With non-negative areas, no district's area exceeds the total. |
| Workflow.SumLossArea | examples/complete_workflow.py:133-136 | The left-to-right `sum` loop computes the reference total. |
| Workflow.ExportKeepsSummary | examples/complete_workflow.py:111-115 | Exporting (dropping only images) changes neither the alert flag nor the total loss. |
| Workflow.Recommend | examples/complete_workflow.py:146-157 | Significant iff total > 50, moderate iff 10 < total ≤ 50, and normal iff total ≤ 10. |
| Workflow.RecommendMonotone | examples/complete_workflow.py:146-151 | More loss never lowers the recommendation tier. |
| Workflow.DemoRecommendation | examples/complete_workflow.py:146-157 | An observation that combines two parts; the script itself runs the live monitor. If the recommendation step is fed demo data, it says "significant" iff at least one district drew the loss scenario. |

## Left out

- Earth Engine pipeline (`get_sentinel2_image`, `calculate_ndvi`, `reduceRegion`/`getInfo`, `generate_map_url`): these are foreign calls. Their outputs are the aggregate and image-handle parameters of `Monitor.AnalyzeDistrict`. The server-side -0.1 loss threshold and the cloud filter live there too.
- Remote service failures: the aggregates always arrive. A failing analysis appears only as a `Failure` outcome of the `analyze` parameter.
- Credential set-up (`ee_auth.py`) and the environment probes of `test_setup.py`: these are external libraries and checks with nothing to state.
- Printing, f-string formatting, the alert `message` text, Streamlit/Plotly rendering, the NDVI gauge, and the "Current NDVI" and detailed-statistics "N/A" displays: all presentation.
- `print_summary` raises when formatting a `None` statistic with `:.4f`. Only its guarded change percentage is modelled, so the workflow's steps are modelled one by one rather than as one run that such a raise would abort.
- `datetime.now`, `strftime` and `strptime`: dates are day numbers. The analysis day is a parameter. A date that fails to parse is a `Dashboard.Entry.Malformed` entry.
- `random`: the five `random()` values per demo district are parameters in [0, 1). The demo's `round(…, 4)` on the NDVI statistics and `round(…, 2)` on the loss area and the alert percentage are not applied. Every demo property is stated on the unrounded values.
- File I/O, JSON, `mkdir` and globbing: the directory's entry names and a `read` function are parameters. The JSON round trip of a saved record is not modelled.
- `argparse`, `sys.exit`, `detailed_report` and the dashboard's mode and district selection: this is command dispatch around modelled operations.
- Python floats: values are Dafny `real`, with no IEEE rounding.
- The demo's `print_summary` divides the change by the previous mean with no guard (demo_mode.py:112-113). The generated previous mean is always positive (`Demo.DemoPreviousPositive`), so this division cannot raise on generated data. Like the rest of that function, it is presentation only and is not modelled.
- The unused `weeks_back` parameter and the unused constants (`min_area_hectares`, `HISTORICAL_MONTHS`, colours, export settings) have no behaviour to model.
- A history entry that is not a dictionary (a `TypeError` the dashboard does not catch) is not modelled. `Dashboard.Entry.Malformed` covers only the `KeyError` and `ValueError` cases it skips.

=== FILE: cli.dfy ===
/** The decisions of the command-line tool `cli.py`: the alert line, the
    change percentage guarded by the truthiness of the previous mean, the
    districts a quick check visits, the side-by-side comparison and the
    history listing. Printing and argument parsing are outside the model;
    each command's output is a datatype of the lines it would print. The
    analysis of a district is a parameter `analyze`. */
module Cli {
  import opened Wrappers
  import opened Records
  import Config
  import Monitor
  import History

  /** The three alert lines of `format_alert`; `percent` is the magnitude shown. */
  datatype AlertMessage = NoAlerts | LossAlert(percent: real) | IncreaseNotice(percent: real)

  function FormatAlert(r: DistrictResult): (m: AlertMessage)
    ensures m.NoAlerts? <==> !HasTriggeredAlert(r)
    ensures m.LossAlert? <==> HasTriggeredAlert(r) && r.alert.value.kind == LossType
    ensures m.IncreaseNotice? <==> HasTriggeredAlert(r) && r.alert.value.kind != LossType
    ensures !m.NoAlerts? ==> m.percent == Abs(r.alert.value.changePercentage) && m.percent >= 0.0
  {
    if r.alert.None? || !r.alert.value.triggered then NoAlerts
    else if r.alert.value.kind == LossType then LossAlert(Abs(r.alert.value.changePercentage))
    else IncreaseNotice(Abs(r.alert.value.changePercentage))
  }

  /** On a fresh analysis the loss line appears exactly for a drop of more
      than five percent and the increase line exactly for a rise of more
      than five percent. */
  lemma FormatAlertOfAnalysis(
    name: string, endDay: int,
    cur: Monitor.Aggregates, prev: Monitor.Aggregates, chg: Monitor.Aggregates, loss: Monitor.Aggregates,
    images: Images)
    requires Monitor.AnalyzeDistrict(name, endDay, cur, prev, chg, loss, images).Success?
    ensures var v := Monitor.AnalyzeDistrict(name, endDay, cur, prev, chg, loss, images).value;
            && (FormatAlert(v).LossAlert? <==>
                  Monitor.ChangeMeanKey in chg && Monitor.MeanKey in prev &&
                  chg[Monitor.ChangeMeanKey] / prev[Monitor.MeanKey] * 100.0 < -5.0)
            && (FormatAlert(v).IncreaseNotice? <==>
                  Monitor.ChangeMeanKey in chg && Monitor.MeanKey in prev &&
                  chg[Monitor.ChangeMeanKey] / prev[Monitor.MeanKey] * 100.0 > 5.0)
  {
  }

  /** `(change / prev * 100) if prev else 0`: a falsy previous mean shows
      zero; a truthy one divides, and a `None` change then raises. */
  function CliChangePct(change: Option<real>, prev: Option<real>): (r: Result<real, Error>)
    ensures !Truthy(prev) ==> r == Success(0.0)
    ensures Truthy(prev) ==> (r.Success? <==> change.Some?)
    ensures Truthy(prev) && r.Success? ==> r.value * prev.value == change.value * 100.0
  {
    if Truthy(prev) then
      if change.None? then Failure(NoneOperand)
      else Success(change.value / prev.value * 100.0)
    else Success(0.0)
  }

  /** Where the monitor raises an alert the tool shows the same percentage;
      where the monitor's division by a zero previous mean raises, the tool
      shows zero. */
  lemma CliPctAgreesWithAlert(change: Option<real>, prev: Option<real>)
    ensures Monitor.AlertDecision(change, prev).Success? && Monitor.AlertDecision(change, prev).value.Some? ==>
              CliChangePct(change, prev) == Success(Monitor.AlertDecision(change, prev).value.value.changePercentage)
    ensures change.Some? && prev == Some(0.0) ==>
              Monitor.AlertDecision(change, prev) == Failure(ZeroDivision) && CliChangePct(change, prev) == Success(0.0)
  {
  }

  /** `[district] if district else list(DISTRICTS.keys())`: a named
      district alone, checked whether or not it is configured; by default
      every configured district once each, so no default target is unknown. */
  function QuickCheckTargets(district: Option<string>): (ts: seq<string>)
    ensures district.Some? && district.value != "" ==> ts == [district.value]
    ensures district.None? || district.value == "" ==>
              && |ts| == |Config.Districts()|
              && (forall i :: 0 <= i < |ts| ==> ts[i] == Config.Districts()[i].key)
              && Distinct(ts)
              && (forall t :: t in ts ==> Config.Lookup(t).Some?)
  {
    if district.Some? && district.value != "" then [district.value] else Config.DistrictKeys()
  }

  /** The default quick check never meets `Unknown district`: an analysis
      of a default target can only raise on the previous-week mean. */
  lemma DefaultTargetsKnown(
    k: nat, endDay: int,
    cur: Monitor.Aggregates, prev: Monitor.Aggregates, chg: Monitor.Aggregates, loss: Monitor.Aggregates,
    images: Images)
    requires k < |QuickCheckTargets(None)|
    ensures var r := Monitor.AnalyzeDistrict(QuickCheckTargets(None)[k], endDay, cur, prev, chg, loss, images);
            r.Failure? ==> r.error == NoneOperand || r.error == ZeroDivision
  {
    var t := QuickCheckTargets(None)[k];
    assert Config.Lookup(t).Some?;
  }

  /** The block `quick_check` prints for one district, or its error line.
      `headerShown` tells whether the `📍 district:` header was printed
      before the error. */
  datatype QuickLine =
    | Reported(district: string, ndvi: real, percent: real, message: AlertMessage)
    | Errored(district: string, headerShown: bool)

  /** One iteration of the `quick_check` loop. The analysis and the
      percentage raise before anything is printed; formatting a `None`
      current mean raises after the header line, and the loop's handler
      turns each into the error line. */
  function QuickLineFor(d: string, outcome: Result<DistrictResult, Error>): (l: QuickLine)
    ensures l.district == d
    ensures l.Reported? <==>
              && outcome.Success?
              && outcome.value.current.mean.Some?
              && CliChangePct(outcome.value.change.mean, outcome.value.previous.mean).Success?
    ensures l.Reported? ==>
              && l.ndvi == outcome.value.current.mean.value
              && l.percent == CliChangePct(outcome.value.change.mean, outcome.value.previous.mean).value
              && l.message == FormatAlert(outcome.value)
    ensures l.Errored? && l.headerShown <==>
              && outcome.Success?
              && outcome.value.current.mean.None?
              && CliChangePct(outcome.value.change.mean, outcome.value.previous.mean).Success?
  {
    match outcome
    case Failure(_) => Errored(d, false)
    case Success(r) =>
      match CliChangePct(r.change.mean, r.previous.mean)
      case Failure(_) => Errored(d, false)
      case Success(pct) =>
        if r.current.mean.None? then Errored(d, true)
        else Reported(d, r.current.mean.value, pct, FormatAlert(r))
  }

  /** `quick_check`: one block per target, in order; a district that fails
      does not stop the others. */
  function QuickCheck(district: Option<string>, analyze: string -> Result<DistrictResult, Error>): (lines: seq<QuickLine>)
    ensures |lines| == |QuickCheckTargets(district)|
    ensures forall i :: 0 <= i < |lines| ==>
              lines[i] == QuickLineFor(QuickCheckTargets(district)[i], analyze(QuickCheckTargets(district)[i]))
  {
    var targets := QuickCheckTargets(district);
    seq(|targets|, i requires 0 <= i < |targets| => QuickLineFor(targets[i], analyze(targets[i])))
  }

  /** A failing district does not stop the others: block `i` is named
      after the `i`-th target, is a report exactly when that target's own
      analysis, percentage and formatting succeed, and no other target's
      outcome can change it. */
  lemma QuickCheckIsolated(
    district: Option<string>,
    a1: string -> Result<DistrictResult, Error>, a2: string -> Result<DistrictResult, Error>,
    i: nat)
    requires i < |QuickCheckTargets(district)|
    requires a1(QuickCheckTargets(district)[i]) == a2(QuickCheckTargets(district)[i])
    ensures var t := QuickCheckTargets(district)[i];
            && QuickCheck(district, a1)[i].district == t
            && (QuickCheck(district, a1)[i].Reported? <==>
                  && a1(t).Success?
                  && a1(t).value.current.mean.Some?
                  && CliChangePct(a1(t).value.change.mean, a1(t).value.previous.mean).Success?)
            && QuickCheck(district, a1)[i] == QuickCheck(district, a2)[i]
  {
  }

  /** One district's entries in the three comparison tables. */
  datatype CompareRow = CompareRow(district: string, ndvi: real, percent: real, message: AlertMessage)

  datatype CompareReport = CouldNotCompare | Compared(rows: seq<CompareRow>)

  /** A result the comparison tables can print without raising. */
  predicate Printable(r: DistrictResult) {
    r.current.mean.Some? && CliChangePct(r.change.mean, r.previous.mean).Success?
  }

  /** `compare_districts`: districts that fail are skipped; fewer than two
      successes print no comparison; a `None` value in the tables raises
      out of the command. */
  function CompareDistricts(analyze: string -> Result<DistrictResult, Error>): (r: Result<CompareReport, Error>)
    ensures var ok := Monitor.Successes(Config.DistrictKeys(), analyze);
            && (r == Success(CouldNotCompare) <==> |ok| < 2)
            && (r.Failure? <==> |ok| >= 2 && exists k :: 0 <= k < |ok| && !Printable(ok[k].result))
            && (r.Success? && r.value.Compared? ==>
                  && |r.value.rows| == |ok|
                  && forall k :: 0 <= k < |ok| ==>
                       && r.value.rows[k].district == ok[k].district
                       && Some(r.value.rows[k].ndvi) == ok[k].result.current.mean
                       && Success(r.value.rows[k].percent) == CliChangePct(ok[k].result.change.mean, ok[k].result.previous.mean)
                       && r.value.rows[k].message == FormatAlert(ok[k].result))
  {
    assert Distinct(Config.DistrictKeys());
    var ok := Monitor.Successes(Config.DistrictKeys(), analyze);
    if |ok| < 2 then Success(CouldNotCompare)
    else if exists k :: 0 <= k < |ok| && !Printable(ok[k].result) then Failure(NoneOperand)
    else
      Success(Compared(seq(|ok|, k requires 0 <= k < |ok| =>
        CompareRow(ok[k].district, ok[k].result.current.mean.value,
                   CliChangePct(ok[k].result.change.mean, ok[k].result.previous.mean).value,
                   FormatAlert(ok[k].result)))))
  }

  /** One numbered line of the history listing. */
  datatype ListedFile = ListedFile(number: nat, name: string, timestamp: string)

  /** The outcomes of `list_history`; `more` is the count in the
      "... and N more files" line, when that line is printed. */
  datatype HistoryListing =
    | NoDataDirectory
    | NoAnalysisFiles
    | Listing(shown: seq<ListedFile>, more: Option<nat>)

  /** Number of files `list_history` shows. */
  const MaxListed: nat := 10

  /** The numbered lines for the first `n` of the newest-first files. */
  function ShownFiles(files: seq<string>, n: nat): (shown: seq<ListedFile>)
    requires n <= |files|
    requires forall k :: 0 <= k < |files| ==> History.IsAnalysisFile(files[k])
    requires History.SortedDesc(files)
    ensures |shown| == n
    ensures forall i :: 0 <= i < n ==>
              && shown[i].number == i + 1
              && shown[i].name == files[i]
              && shown[i].timestamp == History.Timestamp(files[i])
    ensures forall i, j :: 0 <= i < j < n ==> History.LexLe(shown[j].name, shown[i].name)
  {
    seq(n, i requires 0 <= i < n => ListedFile(i + 1, files[i], History.Timestamp(files[i])))
  }

  /** `list_history` over the names in the data directory. */
  function ListHistory(dirExists: bool, entries: seq<string>): (l: HistoryListing)
    ensures l.NoDataDirectory? <==> !dirExists
    ensures l.NoAnalysisFiles? <==> dirExists && forall e :: e in entries ==> !History.IsAnalysisFile(e)
    ensures l.Listing? ==>
              var files := History.AnalysisFiles(entries);
              && |l.shown| == (if |files| < 10 then |files| else 10)
              && (forall i :: 0 <= i < |l.shown| ==>
                    && l.shown[i].number == i + 1
                    && l.shown[i].name == files[i]
                    && History.IsAnalysisFile(files[i])
                    && l.shown[i].timestamp == files[i][|History.Prefix|..|files[i]| - |History.Suffix|])
              && (forall i, j :: 0 <= i < j < |l.shown| ==> History.LexLe(l.shown[j].name, l.shown[i].name))
              && (l.more.Some? <==> |files| > 10)
              && (l.more.Some? ==> l.more.value == |files| - 10)
  {
    if !dirExists then NoDataDirectory
    else
      var files := History.AnalysisFiles(entries);
      History.NoAnalysisFiles(entries);
      if |files| == 0 then NoAnalysisFiles
      else
        var n := if |files| < MaxListed then |files| else MaxListed;
        Listing(ShownFiles(files, n), if |files| > MaxListed then Some(|files| - MaxListed) else None)
  }
}

=== FILE: config.dfy ===
/** The static configuration tables of the monitor: the two districts with
    their bounding boxes, the satellite settings, the NDVI density thresholds
    and the alert settings. They are read-only for the whole program. */
module Config {
  import opened Wrappers

  /** A bounding box in the order [min_lon, min_lat, max_lon, max_lat]. */
  datatype BBox = BBox(minLon: real, minLat: real, maxLon: real, maxLat: real)

  datatype Point = Point(lon: real, lat: real)

  /** One entry of the district table: its key, box, center and display name. */
  datatype District = District(key: string, bbox: BBox, center: Point, name: string)

  datatype SatelliteConfig = SatelliteConfig(collection: string, cloudCoverMax: int, scale: int)

  datatype NdviThresholds = NdviThresholds(
    noVegetation: real, sparse: real, moderate: real, dense: real, veryDense: real)

  datatype AlertConfig = AlertConfig(lossThresholdPct: real, minAreaHectares: real)

  /** A box is well formed when its minimum corner lies strictly below and
      to the left of its maximum corner. */
  predicate WellFormed(b: BBox) {
    b.minLon < b.maxLon && b.minLat < b.maxLat
  }

  /** `p` lies strictly inside `b`. */
  predicate Inside(p: Point, b: BBox) {
    b.minLon < p.lon < b.maxLon && b.minLat < p.lat < b.maxLat
  }

  /** The district table, in the insertion order of the source dictionary. */
  function Districts(): (ds: seq<District>)
    ensures |ds| == 2
    ensures forall i :: 0 <= i < |ds| ==> WellFormed(ds[i].bbox)
    ensures forall i :: 0 <= i < |ds| ==> Inside(ds[i].center, ds[i].bbox)
    ensures forall i, j :: 0 <= i < j < |ds| ==> ds[i].key != ds[j].key
  {
    [ District("Jodhpur", BBox(72.8, 26.0, 73.5, 27.0), Point(73.02, 26.28), "Jodhpur District"),
      District("Bikaner", BBox(72.8, 27.5, 73.8, 28.5), Point(73.31, 28.01), "Bikaner District") ]
  }

  /** The keys of the district table, in table order (`DISTRICTS.keys()`). */
  function DistrictKeys(): (ks: seq<string>)
    ensures |ks| == |Districts()|
    ensures forall i :: 0 <= i < |ks| ==> ks[i] == Districts()[i].key
  {
    seq(|Districts()|, i requires 0 <= i < |Districts()| => Districts()[i].key)
  }

  /** The first district of `ds` whose key is `name`, if any. */
  function Find(ds: seq<District>, name: string): (r: Option<District>)
    ensures r.Some? <==> exists i :: 0 <= i < |ds| && ds[i].key == name
    ensures r.Some? ==> r.value in ds && r.value.key == name
  {
    if |ds| == 0 then None
    else if ds[0].key == name then Some(ds[0])
    else Find(ds[1..], name)
  }

  /** Membership test of the district table (`name in DISTRICTS`). */
  function Lookup(name: string): (r: Option<District>)
    ensures r.Some? <==> name in DistrictKeys()
    ensures r.Some? ==> r.value in Districts() && r.value.key == name
  {
    Find(Districts(), name)
  }

  const Satellite: SatelliteConfig := SatelliteConfig("COPERNICUS/S2_SR_HARMONIZED", 20, 10)

  /** The NDVI levels of the vegetation classes. */
  function Thresholds(): (t: NdviThresholds)
    ensures t.noVegetation < t.sparse < t.moderate < t.dense < t.veryDense
    ensures -1.0 <= t.noVegetation && t.veryDense <= 1.0
  {
    NdviThresholds(0.0, 0.2, 0.4, 0.6, 0.8)
  }

  const Alerting: AlertConfig := AlertConfig(5.0, 0.1)

  /** Length in days of one reporting window. */
  const AnalysisIntervalDays: int := 7

  /** Square metres in a hectare. */
  const SquareMetresPerHectare: real := 10000.0

  /** Area in hectares covered by one pixel at the configured scale. */
  function PixelAreaHectares(): (ha: real)
    ensures ha * SquareMetresPerHectare == (Satellite.scale * Satellite.scale) as real
    ensures ha == 0.01
  {
    (Satellite.scale * Satellite.scale) as real / SquareMetresPerHectare
  }
}

=== FILE: dashboard.dfy ===
/** The decisions of the web dashboard `app.py`: the density class of the
    median, the week-change metric guarded by truthiness, the style of the
    alert box, the NDVI trend series and the loading of the history store.
    Rendering is outside the model; reading a history file is the parameter
    `read`, which yields `None` where loading raises. */
module Dashboard {
  import opened Wrappers
  import opened Records
  import Config
  import History
  import Cli
  import Filters

  datatype Density = Dense | Moderate | Sparse | Low

  /** The "Vegetation Density" metric: strict thresholds on a truthy median. */
  function DensityBucket(median: Option<real>): (d: Density)
    ensures d == Dense <==> median.Some? && median.value > 0.6
    ensures d == Moderate <==> median.Some? && 0.4 < median.value <= 0.6
    ensures d == Sparse <==> median.Some? && 0.2 < median.value <= 0.4
    ensures d == Low <==> median.None? || median.value <= 0.2
  {
    if Truthy(median) && median.value > 0.6 then Dense
    else if Truthy(median) && median.value > 0.4 then Moderate
    else if Truthy(median) && median.value > 0.2 then Sparse
    else Low
  }

  function Rank(d: Density): nat {
    match d
    case Low => 0
    case Sparse => 1
    case Moderate => 2
    case Dense => 3
  }

  /** The class boundaries are the configured sparse, moderate and dense
      thresholds, and a larger median never gets a lower class. */
  lemma DensityFollowsThresholds(a: real, b: real)
    ensures DensityBucket(Some(a)) == Dense <==> a > Config.Thresholds().dense
    ensures DensityBucket(Some(a)) == Moderate <==> Config.Thresholds().moderate < a <= Config.Thresholds().dense
    ensures DensityBucket(Some(a)) == Sparse <==> Config.Thresholds().sparse < a <= Config.Thresholds().moderate
    ensures a <= b ==> Rank(DensityBucket(Some(a))) <= Rank(DensityBucket(Some(b)))
  {
  }

  /** The "Week Change" metric: shown only when both the change and the
      previous mean are truthy; `None` is the "N/A" display. */
  function WeekChange(change: Option<real>, prev: Option<real>): (r: Option<real>)
    ensures r.Some? <==> Truthy(change) && Truthy(prev)
    ensures r.Some? ==> r.value * prev.value == change.value * 100.0 && r.value != 0.0
  {
    if Truthy(change) && Truthy(prev) then Some(change.value / prev.value * 100.0) else None
  }

  /** Where the dashboard shows a week change, the command-line tool shows
      the same value; an exact zero change is "N/A" on the dashboard but
      0% in the tool. */
  lemma WeekChangeVersusCli(change: Option<real>, prev: Option<real>)
    ensures WeekChange(change, prev).Some? ==> Cli.CliChangePct(change, prev) == Success(WeekChange(change, prev).value)
    ensures change == Some(0.0) && Truthy(prev) ==>
              WeekChange(change, prev).None? && Cli.CliChangePct(change, prev) == Success(0.0)
  {
  }

  datatype AlertBoxStyle = NoBox | DangerBox(percent: real) | NoticeBox(percent: real)

  /** The alert box under the metrics. */
  function AlertBox(r: DistrictResult): (b: AlertBoxStyle)
    ensures b.NoBox? <==> !HasTriggeredAlert(r)
    ensures b.DangerBox? <==> HasTriggeredAlert(r) && r.alert.value.kind == LossType
    ensures !b.NoBox? ==> b.percent == Abs(r.alert.value.changePercentage)
  {
    if HasTriggeredAlert(r) then
      if r.alert.value.kind == LossType then DangerBox(Abs(r.alert.value.changePercentage))
      else NoticeBox(Abs(r.alert.value.changePercentage))
    else NoBox
  }

  /** The dashboard and the command-line tool agree on every record: the
      danger box goes with the loss line, the notice box with the increase
      line, with the same magnitude. */
  lemma AlertBoxMatchesCli(r: DistrictResult)
    ensures AlertBox(r).NoBox? <==> Cli.FormatAlert(r).NoAlerts?
    ensures AlertBox(r).DangerBox? <==> Cli.FormatAlert(r).LossAlert?
    ensures AlertBox(r).NoticeBox? <==> Cli.FormatAlert(r).IncreaseNotice?
    ensures !AlertBox(r).NoBox? ==> AlertBox(r).percent == Cli.FormatAlert(r).percent
  {
  }

  /** A district's entry in a loaded history file: `Malformed` stands for an
      entry whose `analysis_date` or `ndvi_mean` key is missing or whose date
      does not parse. */
  datatype Entry = Parsed(result: DistrictResult) | Malformed

  /** One loaded history file: its district entries and the timestamp added
      from the file name. */
  datatype HistoryRecord = HistoryRecord(timestamp: string, districts: map<string, Entry>)

  datatype TrendPoint = TrendPoint(date: int, ndvi: real)

  /** The two parallel lists handed to the chart. */
  datatype Trend = Trend(dates: seq<int>, values: seq<real>)

  /** A record that contributes a point for `district`. */
  predicate Usable(rec: HistoryRecord, district: string) {
    && district in rec.districts
    && rec.districts[district].Parsed?
    && rec.districts[district].result.current.mean.Some?
  }

  function PointOf(rec: HistoryRecord, district: string): TrendPoint
    requires Usable(rec, district)
  {
    var r := rec.districts[district].result;
    TrendPoint(r.analysisDate, r.current.mean.value)
  }

  /** The test the trend loop applies to each record. */
  function UsableFor(district: string): HistoryRecord -> bool {
    rec => Usable(rec, district)
  }

  /** `reversed(historical_data)`: a newest-first history, oldest first. */
  function Reversed(history: seq<HistoryRecord>): (r: seq<HistoryRecord>)
    ensures |r| == |history|
    ensures forall j :: 0 <= j < |r| ==> r[j] == history[|history| - 1 - j]
  {
    seq(|history|, j requires 0 <= j < |history| => history[|history| - 1 - j])
  }

  /** The points of the trend, visiting a newest-first history from its
      oldest record: one point per usable record, oldest first, so that the
      record index falls as the point index rises. */
  function TrendPoints(history: seq<HistoryRecord>, district: string): (pts: seq<TrendPoint>)
    ensures var ix := Filters.Kept(Reversed(history), UsableFor(district));
            && |pts| == |ix|
            && forall m :: 0 <= m < |ix| ==> pts[m] == PointOf(history[|history| - 1 - ix[m]], district)
  {
    if |history| == 0 then []
    else
      var older := TrendPoints(history[1..], district);
      var rev := Reversed(history);
      assert rev[..|history| - 1] == Reversed(history[1..]);
      assert forall k :: 1 <= k < |history| ==> history[1..][k - 1] == history[k];
      older + (if Usable(history[0], district) then [PointOf(history[0], district)] else [])
  }

  /** No points exactly when no record is usable. */
  lemma TrendEmpty(history: seq<HistoryRecord>, district: string)
    ensures TrendPoints(history, district) == [] <==> forall k :: 0 <= k < |history| ==> !Usable(history[k], district)
  {
    var rev := Reversed(history);
    var n := |history|;
    Filters.KeptNone(rev, UsableFor(district));
    forall k | 0 <= k < n
      ensures UsableFor(district)(rev[n - 1 - k]) == Usable(history[k], district)
    {
      assert rev[n - 1 - k] == history[k];
    }
  }

  /** Every point comes from a usable record. */
  lemma TrendFromUsable(history: seq<HistoryRecord>, district: string)
    ensures |TrendPoints(history, district)| <= |history|
    ensures forall p :: p in TrendPoints(history, district) ==>
              exists k :: 0 <= k < |history| && Usable(history[k], district) && p == PointOf(history[k], district)
  {
    var pts := TrendPoints(history, district);
    var ix := Filters.Kept(Reversed(history), UsableFor(district));
    forall p | p in pts
      ensures exists k :: 0 <= k < |history| && Usable(history[k], district) && p == PointOf(history[k], district)
    {
      var m :| 0 <= m < |pts| && pts[m] == p;
      var k := |history| - 1 - ix[m];
      assert Usable(history[k], district) && p == PointOf(history[k], district);
    }
  }

  /** The newest record, when usable, gives the last point. */
  lemma TrendEndsWithNewest(history: seq<HistoryRecord>, district: string)
    requires |history| > 0 && Usable(history[0], district)
    ensures TrendPoints(history, district) != []
    ensures TrendPoints(history, district)[|TrendPoints(history, district)| - 1] == PointOf(history[0], district)
  {
    var rev := Reversed(history);
    var ix := Filters.Kept(rev, UsableFor(district));
    var n := |history|;
    assert UsableFor(district)(rev[n - 1]);
    Filters.KeptComplete(rev, UsableFor(district), n - 1);
    Filters.KeptAscending(rev, UsableFor(district));
    var i :| 0 <= i < |ix| && ix[i] == n - 1;
    assert i == |ix| - 1;
  }

  /** `create_trend_chart` without the plotting: `None` for an empty history
      or when no record gives a point, otherwise the aligned lists of dates
      and values, oldest first. */
  method CreateTrendChart(history: seq<HistoryRecord>, district: string) returns (t: Option<Trend>)
    ensures |history| == 0 ==> t.None?
    ensures t.None? <==> forall k :: 0 <= k < |history| ==> !Usable(history[k], district)
    ensures t.Some? ==>
              var pts := TrendPoints(history, district);
              && |t.value.dates| == |t.value.values| == |pts|
              && forall k :: 0 <= k < |pts| ==> t.value.dates[k] == pts[k].date && t.value.values[k] == pts[k].ndvi
  {
    if |history| == 0 {
      return None;
    }
    var dates: seq<int> := [];
    var values: seq<real> := [];
    var i := |history|;
    while i > 0
      invariant 0 <= i <= |history|
      invariant |dates| == |values| == |TrendPoints(history[i..], district)|
      invariant forall k :: 0 <= k < |dates| ==>
                  dates[k] == TrendPoints(history[i..], district)[k].date &&
                  values[k] == TrendPoints(history[i..], district)[k].ndvi
    {
      i := i - 1;
      assert history[i..][1..] == history[i + 1..];
      if Usable(history[i], district) {
        var p := PointOf(history[i], district);
        dates := dates + [p.date];
        values := values + [p.ndvi];
      }
    }
    assert history[0..] == history;
    TrendEmpty(history, district);
    if |dates| == 0 {
      t := None;
    } else {
      t := Some(Trend(dates, values));
    }
  }

  /** The test the loading loop passes a file by: it loads without raising. */
  function Loads(read: string -> Option<map<string, Entry>>): string -> bool {
    f => read(f).Some?
  }

  /** The record a readable history file yields: its entries, with the
      timestamp taken from its name added. */
  function Loaded(f: string, read: string -> Option<map<string, Entry>>): HistoryRecord
    requires History.IsAnalysisFile(f) && read(f).Some?
  {
    HistoryRecord(History.Timestamp(f), read(f).value)
  }

  /** The loop of `load_historical_data` over files already sorted: a file
      that fails to load is skipped with a warning, and the others are kept
      in file order, one record each. */
  function LoadFiles(files: seq<string>, read: string -> Option<map<string, Entry>>): (rs: seq<HistoryRecord>)
    requires forall k :: 0 <= k < |files| ==> History.IsAnalysisFile(files[k])
    ensures var ix := Filters.Kept(files, Loads(read));
            && |rs| == |ix|
            && forall m :: 0 <= m < |ix| ==> rs[m] == Loaded(files[ix[m]], read)
    decreases |files|
  {
    if |files| == 0 then []
    else
      var init := files[..|files| - 1];
      var last := files[|files| - 1];
      assert forall k :: 0 <= k < |init| ==> init[k] == files[k];
      var ix := Filters.Kept(init, Loads(read));
      assert Filters.Kept(files, Loads(read)) == ix + (if read(last).Some? then [|files| - 1] else []);
      var rs := LoadFiles(init, read);
      assert forall m :: 0 <= m < |ix| ==> rs[m] == Loaded(files[ix[m]], read);
      rs + (if read(last).Some? then [Loaded(last, read)] else [])
  }

  /** With every file readable, the records follow the files one for one. */
  lemma LoadFilesAllReadable(files: seq<string>, read: string -> Option<map<string, Entry>>)
    requires forall k :: 0 <= k < |files| ==> History.IsAnalysisFile(files[k])
    requires forall k :: 0 <= k < |files| ==> read(files[k]).Some?
    ensures |LoadFiles(files, read)| == |files|
    ensures forall k :: 0 <= k < |files| ==> LoadFiles(files, read)[k] == Loaded(files[k], read)
  {
    Filters.KeptAll(files, Loads(read));
  }

  /** `rec` is what loading the history file `f` yields. */
  predicate StampedFrom(rec: HistoryRecord, f: string, read: string -> Option<map<string, Entry>>) {
    History.IsAnalysisFile(f) && read(f).Some? && rec == Loaded(f, read)
  }

  /** `load_historical_data`: no directory gives no records; otherwise the
      readable history files in newest-first name order, one record each,
      stamped with the text of the name between `analysis_` and `.json`. */
  function LoadHistoricalData(dirExists: bool, entries: seq<string>, read: string -> Option<map<string, Entry>>): (rs: seq<HistoryRecord>)
    ensures !dirExists ==> rs == []
    ensures dirExists ==>
              var files := History.AnalysisFiles(entries);
              var ix := Filters.Kept(files, Loads(read));
              && |rs| == |ix|
              && forall m :: 0 <= m < |ix| ==> rs[m] == Loaded(files[ix[m]], read)
  {
    if !dirExists then [] else LoadFiles(History.AnalysisFiles(entries), read)
  }

  /** Every loaded record comes from a readable `analysis_*.json` entry of
      the directory and carries that file's timestamp; with every entry
      readable, the records follow the newest-first files one for one. */
  lemma LoadedFromEntries(dirExists: bool, entries: seq<string>, read: string -> Option<map<string, Entry>>)
    ensures var rs := LoadHistoricalData(dirExists, entries, read);
            forall k :: 0 <= k < |rs| ==> exists f :: f in entries && StampedFrom(rs[k], f, read)
    ensures var rs := LoadHistoricalData(dirExists, entries, read);
            var files := History.AnalysisFiles(entries);
            dirExists && (forall f :: f in entries ==> read(f).Some?) ==>
              && |rs| == |files|
              && forall k :: 0 <= k < |rs| ==> rs[k] == Loaded(files[k], read)
  {
    var rs := LoadHistoricalData(dirExists, entries, read);
    if dirExists {
      var files := History.AnalysisFiles(entries);
      var ix := Filters.Kept(files, Loads(read));
      forall k | 0 <= k < |rs|
        ensures exists f :: f in entries && StampedFrom(rs[k], f, read)
      {
        var f := files[ix[k]];
        assert f in files;
        assert StampedFrom(rs[k], f, read);
      }
      if forall f :: f in entries ==> read(f).Some? {
        assert forall k :: 0 <= k < |files| ==> files[k] in files;
        LoadFilesAllReadable(files, read);
      }
    }
  }
}

=== FILE: demo.dfy ===
/** The deterministic rules of `generate_demo_data` in `demo_mode.py`. The
    random number generator is outside the model: each district consumes
    five `random()` values in [0, 1), passed in as `Draws`, and
    `random.uniform(a, b)` is `a + (b - a) * random()`. Values are stated
    before `round` is applied. */
module Demo {
  import opened Wrappers
  import opened Records
  import Monitor

  datatype DemoDistrict = DemoDistrict(name: string, baseNdvi: real, variation: real)

  /** The simulated districts and their base NDVI. */
  function DemoDistricts(): (ds: seq<DemoDistrict>)
    ensures |ds| == 2
    ensures forall k :: 0 <= k < |ds| ==> 0.38 <= ds[k].baseNdvi <= 0.45
  {
    [DemoDistrict("Jodhpur", 0.45, 0.08), DemoDistrict("Bikaner", 0.38, 0.06)]
  }

  /** The `random()` values behind: the current NDVI offset, the scenario
      choice, the previous NDVI offset, the loss area and the deviation. */
  datatype Draws = Draws(current: real, scenario: real, previous: real, loss: real, std: real)

  predicate Unit(u: real) {
    0.0 <= u < 1.0
  }

  predicate ValidDraws(d: Draws) {
    Unit(d.current) && Unit(d.scenario) && Unit(d.previous) && Unit(d.loss) && Unit(d.std)
  }

  /** A unit draw scaled by a non-negative width stays within that width. */
  lemma ScaledUnit(w: real, u: real)
    requires 0.0 <= w && Unit(u)
    ensures 0.0 <= w * u <= w
  {
    if w > 0.0 {
      assert w * u <= w * 1.0;
    }
  }

  /** `random.uniform(a, b)` for the underlying value `u`. */
  function Uniform(a: real, b: real, u: real): (x: real)
    requires a <= b && Unit(u)
    ensures a <= x <= b
  {
    var w := b - a;
    var d := w * u;
    ScaledUnit(w, u);
    assert 0.0 <= d <= w;
    a + d
  }

  /** `random.random() < 0.3`: the simulated vegetation-loss scenario. */
  predicate LossScenario(d: Draws) {
    d.scenario < 0.3
  }

  /** The simulated NDVI values of one district before rounding. */
  datatype Sample = Sample(current: real, previous: real, change: real, loss: real, std: real)

  function Draw(dd: DemoDistrict, d: Draws): (s: Sample)
    requires ValidDraws(d)
    ensures s.change == s.current - s.previous
    ensures dd.baseNdvi - 0.05 <= s.current <= dd.baseNdvi + 0.05
    ensures LossScenario(d) ==> -0.08 <= s.change <= -0.03 && s.previous > s.current
    ensures LossScenario(d) ==> 50.0 <= s.loss <= 200.0
    ensures !LossScenario(d) ==> -0.02 <= s.change <= 0.02 && 5.0 <= s.loss <= 25.0
    ensures 0.08 <= s.std <= 0.15
  {
    var current := dd.baseNdvi + Uniform(-0.05, 0.05, d.current);
    var std := Uniform(0.08, 0.15, d.std);
    if LossScenario(d) then
      var previous := current + Uniform(0.03, 0.08, d.previous);
      Sample(current, previous, current - previous, Uniform(50.0, 200.0, d.loss), std)
    else
      var previous := current + Uniform(-0.02, 0.02, d.previous);
      Sample(current, previous, current - previous, Uniform(5.0, 25.0, d.loss), std)
  }

  /** `(ndvi_change / previous_ndvi) * 100 if previous_ndvi else 0`. */
  function DemoPct(change: real, previous: real): (pct: real)
    ensures previous == 0.0 ==> pct == 0.0
    ensures previous != 0.0 ==> pct * previous == change * 100.0
  {
    if previous != 0.0 then change / previous * 100.0 else 0.0
  }

  /** The simulated result of one district on day `endDay`. */
  function GenerateDistrict(dd: DemoDistrict, d: Draws, endDay: int): (r: DistrictResult)
    requires ValidDraws(d)
    ensures r.district == dd.name && r.analysisDate == endDay && r.images.None?
    ensures && r.current.window.end == endDay
            && r.previous.window.end == r.current.window.start
            && r.current.window.end - r.current.window.start == 7
            && r.previous.window.end - r.previous.window.start == 7
    ensures && r.current.mean.Some? && r.previous.mean.Some? && r.change.mean.Some?
            && r.change.mean.value == r.current.mean.value - r.previous.mean.value
    ensures && r.current.p10.Some? && r.current.median.Some? && r.current.p90.Some?
            && r.current.p10.value < r.current.median.value < r.current.p90.value
    ensures && r.change.min.Some? && r.change.max.Some?
            && r.change.min.value < r.change.mean.value < r.change.max.value
    ensures LossScenario(d) ==>
              r.previous.mean.value > r.current.mean.value && 50.0 <= r.change.lossAreaHectares <= 200.0
    ensures !LossScenario(d) ==> 5.0 <= r.change.lossAreaHectares <= 25.0
    ensures r.alert.Some? <==>
              r.previous.mean.value != 0.0 &&
              Abs(r.change.mean.value / r.previous.mean.value * 100.0) > 5.0
    ensures r.alert.Some? ==>
              && r.alert.value.triggered
              && r.alert.value.changePercentage * r.previous.mean.value == r.change.mean.value * 100.0
              && (r.alert.value.kind == LossType <==> r.alert.value.changePercentage < 0.0)
              && r.alert.value.kind == (if r.alert.value.changePercentage < 0.0 then LossType else GainType)
  {
    var s := Draw(dd, d);
    var pct := DemoPct(s.change, s.previous);
    var (cw, pw) := Monitor.Windows(endDay);
    DistrictResult(
      dd.name, endDay,
      CurrentWeek(cw, Some(s.current), Some(s.std), Some(s.current - 0.15), Some(s.current + 0.01), Some(s.current + 0.12)),
      PreviousWeek(pw, Some(s.previous)),
      Change(Some(s.change), Some(s.change - 0.05), Some(s.change + 0.03), s.loss),
      None,
      if Abs(pct) > 5.0 then Some(Alert(true, if pct < 0.0 then LossType else GainType, pct)) else None)
  }

  /** `generate_demo_data`: one simulated result per district, in order. */
  function GenerateDemoData(draws: seq<Draws>, endDay: int): (rs: seq<Analyzed>)
    requires |draws| == |DemoDistricts()|
    requires forall k :: 0 <= k < |draws| ==> ValidDraws(draws[k])
    ensures Names(rs) == ["Jodhpur", "Bikaner"]
    ensures forall k :: 0 <= k < |rs| ==> rs[k].result == GenerateDistrict(DemoDistricts()[k], draws[k], endDay)
  {
    var ds := DemoDistricts();
    var rs := seq(|ds|, k requires 0 <= k < |ds| => Analyzed(ds[k].name, GenerateDistrict(ds[k], draws[k], endDay)));
    assert Names(rs) == [rs[0].district, rs[1].district];
    rs
  }

  /** The previous mean is always positive, so the percentage always divides. */
  lemma DemoPreviousPositive(k: nat, d: Draws, endDay: int)
    requires k < |DemoDistricts()| && ValidDraws(d)
    ensures GenerateDistrict(DemoDistricts()[k], d, endDay).previous.mean.value > 0.0
  {
  }

  /** In the loss scenario an alert is always raised, and it is a loss alert. */
  lemma LossScenarioAlwaysAlerts(k: nat, d: Draws, endDay: int)
    requires k < |DemoDistricts()| && ValidDraws(d) && LossScenario(d)
    ensures var r := GenerateDistrict(DemoDistricts()[k], d, endDay);
            r.alert.Some? && r.alert.value.kind == LossType
  {
  }

  /** The "normal" scenario can raise an alert as well: Bikaner at its lowest
      current value with the largest previous-week drop reads as a gain of
      about 6.45 percent. */
  lemma NormalScenarioCanAlert()
    ensures var r := GenerateDistrict(DemoDistricts()[1], Draws(0.0, 0.5, 0.0, 0.0, 0.0), 0);
            r.alert.Some? && r.alert.value.kind == GainType
  {
  }
}

=== FILE: filters.dfy ===
/** Order-preserving selection, as done by a Python loop that visits a list
    in order and appends each element passing a test: the positions of the
    passing elements, in increasing order. Several operations of the
    application are such loops; each states its result through `Kept`. */
module Filters {
  /** Strictly increasing positions, each below `n`. */
  predicate Ascending(ix: seq<nat>, n: nat) {
    && (forall m :: 0 <= m < |ix| ==> ix[m] < n)
    && (forall m1, m2 :: 0 <= m1 < m2 < |ix| ==> ix[m1] < ix[m2])
  }

  /** The positions of `s` whose element passes `p`, in order. Every
      position listed passes; `KeptAscending` and `KeptComplete` add that
      the list ascends and misses no passing position, which together
      determine it. */
  function Kept<T>(s: seq<T>, p: T -> bool): (ix: seq<nat>)
    ensures |ix| <= |s|
    ensures forall m :: 0 <= m < |ix| ==> ix[m] < |s| && p(s[ix[m]])
    decreases |s|
  {
    if |s| == 0 then []
    else
      var init := Kept(s[..|s| - 1], p);
      assert forall k :: 0 <= k < |s| - 1 ==> s[..|s| - 1][k] == s[k];
      init + (if p(s[|s| - 1]) then [|s| - 1] else [])
  }

  /** The kept positions ascend. */
  lemma {:induction false} KeptAscending<T>(s: seq<T>, p: T -> bool)
    ensures Ascending(Kept(s, p), |s|)
    decreases |s|
  {
    if |s| > 0 {
      var init := s[..|s| - 1];
      assert forall k :: 0 <= k < |init| ==> init[k] == s[k];
      KeptAscending(init, p);
    }
  }

  /** A passing position is kept. */
  lemma {:induction false} KeptComplete<T>(s: seq<T>, p: T -> bool, k: nat)
    requires k < |s| && p(s[k])
    ensures k in Kept(s, p)
    decreases |s|
  {
    var init := s[..|s| - 1];
    if k < |s| - 1 {
      assert init[k] == s[k];
      KeptComplete(init, p, k);
    }
  }

  /** Nothing is kept exactly when nothing passes. */
  lemma KeptNone<T>(s: seq<T>, p: T -> bool)
    ensures Kept(s, p) == [] <==> forall k :: 0 <= k < |s| ==> !p(s[k])
  {
    forall k | 0 <= k < |s| && p(s[k])
      ensures Kept(s, p) != []
    {
      KeptComplete(s, p, k);
    }
  }

  /** When every element passes, every position is kept. */
  lemma {:induction false} KeptAll<T>(s: seq<T>, p: T -> bool)
    requires forall k :: 0 <= k < |s| ==> p(s[k])
    ensures |Kept(s, p)| == |s|
    ensures forall m :: 0 <= m < |s| ==> Kept(s, p)[m] == m
    decreases |s|
  {
    if |s| > 0 {
      var init := s[..|s| - 1];
      assert forall k :: 0 <= k < |init| ==> init[k] == s[k];
      KeptAll(init, p);
    }
  }
}

=== FILE: history.dfy ===
/** The file-name side of the history store shared by the command-line
    listing and the dashboard: the `analysis_*.json` pattern, Python's string
    order, the descending sort of file names, and the timestamp taken from a
    file name. Reading the directory and the files is outside the model; the
    directory's entry names are a parameter. */
module History {
  import opened Wrappers
  import Filters

  const Prefix: string := "analysis_"
  const Suffix: string := ".json"

  /** Python's `a <= b` on strings: code-point lexicographic order, with a
      proper prefix ordered first. */
  predicate LexLe(a: string, b: string)
    decreases |a|
  {
    |a| == 0 || (|b| > 0 && (a[0] < b[0] || (a[0] == b[0] && LexLe(a[1..], b[1..]))))
  }

  lemma {:induction false} LexLeTotal(a: string, b: string)
    ensures LexLe(a, b) || LexLe(b, a)
    decreases |a|
  {
    if |a| > 0 && |b| > 0 && a[0] == b[0] {
      LexLeTotal(a[1..], b[1..]);
    }
  }

  lemma {:induction false} LexLeTransitive(a: string, b: string, c: string)
    requires LexLe(a, b) && LexLe(b, c)
    ensures LexLe(a, c)
    decreases |a|
  {
    if |a| > 0 && a[0] == b[0] && b[0] == c[0] {
      LexLeTransitive(a[1..], b[1..], c[1..]);
    }
  }

  lemma {:induction false} LexLeAntisymmetric(a: string, b: string)
    requires LexLe(a, b) && LexLe(b, a)
    ensures a == b
    decreases |a|
  {
    if |a| > 0 {
      LexLeAntisymmetric(a[1..], b[1..]);
      assert a == [a[0]] + a[1..] && b == [b[0]] + b[1..];
    }
  }

  /** Newest first: every name is at least every name after it. */
  predicate SortedDesc(s: seq<string>) {
    forall i, j :: 0 <= i < j < |s| ==> LexLe(s[j], s[i])
  }

  /** Insert `x` into a descending sequence. */
  function InsertDesc(x: string, s: seq<string>): (r: seq<string>)
    ensures |r| == |s| + 1
    ensures multiset(r) == multiset(s) + multiset{x}
  {
    if |s| == 0 then [x]
    else if LexLe(s[0], x) then [x] + s
    else
      assert s == [s[0]] + s[1..];
      [s[0]] + InsertDesc(x, s[1..])
  }

  lemma {:induction false} InsertDescSorted(x: string, s: seq<string>)
    requires SortedDesc(s)
    ensures SortedDesc(InsertDesc(x, s))
  {
    if |s| == 0 {
    } else if LexLe(s[0], x) {
      var r := [x] + s;
      forall i, j | 0 <= i < j < |r|
        ensures LexLe(r[j], r[i])
      {
        if i == 0 {
          if j > 1 {
            LexLeTransitive(s[j - 1], s[0], x);
          }
        }
      }
    } else {
      LexLeTotal(s[0], x);
      InsertDescSorted(x, s[1..]);
      var t := InsertDesc(x, s[1..]);
      var r := [s[0]] + t;
      forall e | e in t
        ensures LexLe(e, s[0])
      {
        assert e in multiset(t);
        if e != x {
          assert e in multiset(s[1..]);
          var k :| 0 <= k < |s[1..]| && s[1..][k] == e;
          assert s[k + 1] == e;
        }
      }
      forall i, j | 0 <= i < j < |r|
        ensures LexLe(r[j], r[i])
      {
        if i == 0 {
          assert r[j] == t[j - 1];
          assert t[j - 1] in t;
        } else {
          assert r[i] == t[i - 1] && r[j] == t[j - 1];
        }
      }
    }
  }

  /** `sorted(names, reverse=True)`, as an insertion sort. */
  function SortDesc(s: seq<string>): (r: seq<string>)
    ensures |r| == |s|
    ensures multiset(r) == multiset(s)
  {
    if |s| == 0 then []
    else
      assert s == [s[0]] + s[1..];
      InsertDesc(s[0], SortDesc(s[1..]))
  }

  lemma {:induction false} SortDescSorted(s: seq<string>)
    ensures SortedDesc(SortDesc(s))
  {
    if |s| > 0 {
      SortDescSorted(s[1..]);
      InsertDescSorted(s[0], SortDesc(s[1..]));
    }
  }

  /** The tail of a descending sequence descends. */
  lemma SortedDescTail(a: seq<string>)
    requires |a| > 0 && SortedDesc(a)
    ensures SortedDesc(a[1..])
  {
    forall i, j | 0 <= i < j < |a| - 1
      ensures LexLe(a[1..][j], a[1..][i])
    {
      assert a[1..][j] == a[j + 1] && a[1..][i] == a[i + 1];
    }
  }

  /** Two descending sequences with the same elements start alike. */
  lemma SortedDescSameHead(a: seq<string>, b: seq<string>)
    requires |a| > 0 && |b| > 0
    requires SortedDesc(a) && SortedDesc(b) && multiset(a) == multiset(b)
    ensures a[0] == b[0]
  {
    assert a[0] in multiset(b) && b[0] in multiset(a);
    var j :| 0 <= j < |b| && b[j] == a[0];
    var i :| 0 <= i < |a| && a[i] == b[0];
    if a[0] != b[0] {
      assert j > 0 && i > 0;
      assert LexLe(b[j], b[0]) && LexLe(a[i], a[0]);
      LexLeAntisymmetric(a[0], b[0]);
      assert false;
    }
  }

  /** Removing the same first element leaves the same elements. */
  lemma SameTailElements(a: seq<string>, b: seq<string>)
    requires |a| > 0 && |b| > 0 && a[0] == b[0] && multiset(a) == multiset(b)
    ensures multiset(a[1..]) == multiset(b[1..])
  {
    assert a == [a[0]] + a[1..] && b == [b[0]] + b[1..];
    assert multiset(a) == multiset{a[0]} + multiset(a[1..]);
    assert multiset(b) == multiset{b[0]} + multiset(b[1..]);
    assert multiset(a[1..]) == multiset(a) - multiset{a[0]};
  }

  /** A descending sequence is fixed by its elements: two with the same
      multiset are equal. */
  lemma {:induction false} SortedDescUnique(a: seq<string>, b: seq<string>)
    requires SortedDesc(a) && SortedDesc(b) && multiset(a) == multiset(b)
    ensures a == b
    decreases |a|
  {
    assert |a| == |multiset(a)| == |multiset(b)| == |b|;
    if |a| > 0 {
      SortedDescSameHead(a, b);
      SameTailElements(a, b);
      SortedDescTail(a);
      SortedDescTail(b);
      SortedDescUnique(a[1..], b[1..]);
      assert a == [a[0]] + a[1..] && b == [b[0]] + b[1..];
    }
  }

  /** The name matches the glob `analysis_*.json`. */
  predicate IsAnalysisFile(name: string) {
    && |name| >= |Prefix| + |Suffix|
    && name[..|Prefix|] == Prefix
    && name[|name| - |Suffix|..] == Suffix
  }

  /** The entries of the directory that the glob keeps, in directory order:
      every matching entry once, at its turn, and nothing else. */
  function MatchingFiles(entries: seq<string>): (r: seq<string>)
    ensures var ix := Filters.Kept(entries, IsAnalysisFile);
            && |r| == |ix|
            && forall m :: 0 <= m < |ix| ==> r[m] == entries[ix[m]]
    decreases |entries|
  {
    if |entries| == 0 then []
    else
      var init := entries[..|entries| - 1];
      var last := entries[|entries| - 1];
      assert forall k :: 0 <= k < |init| ==> init[k] == entries[k];
      MatchingFiles(init) + (if IsAnalysisFile(last) then [last] else [])
  }

  /** The glob keeps exactly the matching entries. */
  lemma {:induction false} MatchingFilesMembers(entries: seq<string>)
    ensures forall f :: f in MatchingFiles(entries) <==> f in entries && IsAnalysisFile(f)
    decreases |entries|
  {
    if |entries| > 0 {
      var init := entries[..|entries| - 1];
      var last := entries[|entries| - 1];
      MatchingFilesMembers(init);
      assert entries == init + [last];
      assert MatchingFiles(entries) == MatchingFiles(init) + (if IsAnalysisFile(last) then [last] else []);
    }
  }

  /** The history files, newest first: each matching entry exactly as often
      as the glob yields it. */
  function AnalysisFiles(entries: seq<string>): (files: seq<string>)
    ensures SortedDesc(files)
    ensures multiset(files) == multiset(MatchingFiles(entries))
    ensures forall k :: 0 <= k < |files| ==> IsAnalysisFile(files[k])
    ensures forall f :: f in files <==> f in entries && IsAnalysisFile(f)
  {
    var matching := MatchingFiles(entries);
    MatchingFilesMembers(entries);
    var files := SortDesc(matching);
    SortDescSorted(matching);
    assert |files| == |matching|;
    assert forall f :: f in files <==> f in multiset(matching);
    assert forall k :: 0 <= k < |files| ==> files[k] in files;
    files
  }

  /** The glob yields each matching entry as often as the directory holds
      it, and no other entry. */
  lemma {:induction false} MatchingFilesCounts(entries: seq<string>)
    ensures forall f :: multiset(MatchingFiles(entries))[f] ==
                          if IsAnalysisFile(f) then multiset(entries)[f] else 0
    decreases |entries|
  {
    if |entries| > 0 {
      var init := entries[..|entries| - 1];
      var last := entries[|entries| - 1];
      MatchingFilesCounts(init);
      assert entries == init + [last];
      assert MatchingFiles(entries) == MatchingFiles(init) + (if IsAnalysisFile(last) then [last] else []);
    }
  }

  /** The history files do not depend on the order the directory lists its
      entries in: `sorted` undoes whatever order the glob returns. */
  lemma AnalysisFilesOrderFree(e1: seq<string>, e2: seq<string>)
    requires multiset(e1) == multiset(e2)
    ensures AnalysisFiles(e1) == AnalysisFiles(e2)
  {
    MatchingFilesCounts(e1);
    MatchingFilesCounts(e2);
    assert multiset(MatchingFiles(e1)) == multiset(MatchingFiles(e2));
    SortedDescUnique(AnalysisFiles(e1), AnalysisFiles(e2));
  }

  /** The number of history files is the number of matching directory
      entries, repeats included; it is the `n` of the listing's "n − 10
      more". */
  lemma AnalysisFilesCount(entries: seq<string>)
    ensures |AnalysisFiles(entries)| == |Filters.Kept(entries, IsAnalysisFile)|
  {
    assert |AnalysisFiles(entries)| == |multiset(MatchingFiles(entries))|;
  }

  /** There are no history files exactly when no entry matches. */
  lemma NoAnalysisFiles(entries: seq<string>)
    ensures AnalysisFiles(entries) == [] <==> forall e :: e in entries ==> !IsAnalysisFile(e)
  {
    var files := AnalysisFiles(entries);
    if files != [] {
      assert files[0] in files;
    }
  }

  /** `s.split('_', 1)[1]`: the text after the first underscore, or `None`
      where Python raises `IndexError` for want of an underscore. */
  function AfterFirstUnderscore(s: string): (r: Option<string>)
    ensures r.None? <==> '_' !in s
    ensures r.Some? ==> exists i :: 0 <= i < |s| && s[i] == '_' && '_' !in s[..i] && r.value == s[i + 1..]
  {
    if |s| == 0 then None
    else if s[0] == '_' then
      assert s[..0] == [];
      Some(s[1..])
    else
      var r := AfterFirstUnderscore(s[1..]);
      assert '_' in s <==> '_' in s[1..] by {
        assert s == [s[0]] + s[1..];
      }
      if r.Some? then
        var i :| 0 <= i < |s[1..]| && s[1..][i] == '_' && '_' !in s[1..][..i] && r.value == s[1..][i + 1..];
        assert s[..i + 1] == [s[0]] + s[1..][..i];
        assert s[i + 1] == '_' && r.value == s[i + 2..];
        r
      else r
  }

  /** `Path(name).stem` for a name ending in `.json`. */
  function Stem(name: string): string
    requires IsAnalysisFile(name)
  {
    name[..|name| - |Suffix|]
  }

  /** `file.stem.split('_', 1)[1]` for a history file: exactly the text
      between the prefix and the suffix. */
  function Timestamp(name: string): (ts: string)
    requires IsAnalysisFile(name)
    ensures ts == name[|Prefix|..|name| - |Suffix|]
  {
    var stem := Stem(name);
    assert stem[..|Prefix|] == Prefix;
    assert stem[8] == '_';
    assert '_' !in stem[..8] by {
      assert stem[..8] == "analysis";
    }
    var r := AfterFirstUnderscore(stem);
    var i :| 0 <= i < |stem| && stem[i] == '_' && '_' !in stem[..i] && r.value == stem[i + 1..];
    assert i == 8;
    r.value
  }

  /** A file saved as `analysis_<ts>.json` is listed, and its timestamp is
      `ts` again. */
  lemma SavedNameRoundTrip(ts: string)
    ensures IsAnalysisFile(Prefix + ts + Suffix)
    ensures Timestamp(Prefix + ts + Suffix) == ts
  {
  }

  /** The demo generator names its files `demo_analysis_<ts>.json`; the
      history pattern never matches them. */
  lemma DemoFilesNotListed(ts: string)
    ensures !IsAnalysisFile("demo_analysis_" + ts + ".json")
  {
    var name := "demo_analysis_" + ts + ".json";
    assert name[0] == 'd';
    if |name| >= |Prefix| + |Suffix| {
      assert name[..|Prefix|][0] == 'd';
    }
  }
}

=== FILE: monitor.dfy ===
/** The local decision layer of `VegetationMonitor.analyze_district`: the two
    reporting windows, the unit conversion of the loss area, the copying of
    the service's aggregates into the result, and the alert rule; plus the
    change percentage of `print_summary` and the analysis loop and export of
    `main`. The satellite service is outside the model: its aggregate
    dictionaries and the image handles are parameters. */
module Monitor {
  import opened Wrappers
  import opened Records
  import Config
  import Filters

  /** A dictionary returned by the service's region reduction. */
  type Aggregates = map<string, real>

  /** Output names of the reducers. */
  const MeanKey: string := "NDVI_mean"
  const StdKey: string := "NDVI_stdDev"
  const P10Key: string := "NDVI_p10"
  const P50Key: string := "NDVI_p50"
  const P90Key: string := "NDVI_p90"
  const ChangeMeanKey: string := "NDVI_Change_mean"
  const ChangeMinKey: string := "NDVI_Change_min"
  const ChangeMaxKey: string := "NDVI_Change_max"
  const LossSumKey: string := "NDVI_Change"

  /** `m.get(key, None)`. */
  function Get(m: Aggregates, key: string): Option<real> {
    if key in m then Some(m[key]) else None
  }

  /** `v` is the aggregate stored under `key`, or `None` exactly when the key
      is absent (never a default number). */
  predicate ReadFrom(v: Option<real>, m: Aggregates, key: string) {
    if key in m then v == Some(m[key]) else v.None?
  }

  /** The current and the previous window ending at day `endDay`. */
  function Windows(endDay: int): (w: (Window, Window))
    ensures w.0.end == endDay
    ensures w.1.end == w.0.start
    ensures w.0.end - w.0.start == Config.AnalysisIntervalDays
    ensures w.1.end - w.1.start == Config.AnalysisIntervalDays
  {
    (Window(endDay - 7, endDay), Window(endDay - 14, endDay - 7))
  }

  /** The previous window of a run is the current window of the run one
      interval earlier, so weekly runs tile the calendar. */
  lemma WeeklyRunsTile(endDay: int)
    ensures Windows(endDay).1 == Windows(endDay - Config.AnalysisIntervalDays).0
  {
  }

  /** Loss area in hectares from the summed loss-pixel count. */
  function LossHectares(loss: Aggregates): (ha: real)
    ensures LossSumKey !in loss ==> ha == 0.0
    ensures ha * Config.SquareMetresPerHectare
         == Get(loss, LossSumKey).GetOr(0.0) * (Config.Satellite.scale * Config.Satellite.scale) as real
    ensures LossSumKey in loss && loss[LossSumKey] >= 0.0 ==> ha >= 0.0
  {
    Get(loss, LossSumKey).GetOr(0.0) * 0.01
  }

  /** The alert block of `analyze_district`. Only the change mean is tested
      for `None`; dividing by a `None` or zero previous mean raises. */
  function AlertDecision(change: Option<real>, prev: Option<real>): (r: Result<Option<Alert>, Error>)
    ensures r.Failure? <==> change.Some? && !Truthy(prev)
    ensures r.Failure? ==> r.error == (if prev.None? then NoneOperand else ZeroDivision)
    ensures r.Success? && r.value.Some? <==>
              change.Some? && Truthy(prev) &&
              (change.value / prev.value * 100.0 < -5.0 || change.value / prev.value * 100.0 > 5.0)
    ensures r.Success? && r.value.Some? ==>
              && r.value.value.triggered
              && r.value.value.changePercentage == change.value / prev.value * 100.0
              && (r.value.value.kind == LossType <==> r.value.value.changePercentage < -5.0)
              && (r.value.value.kind == GainType <==> r.value.value.changePercentage > 5.0)
  {
    if change.None? then Success(None)
    else if prev.None? then Failure(NoneOperand)
    else if prev.value == 0.0 then Failure(ZeroDivision)
    else
      var pct := change.value / prev.value * 100.0;
      if Abs(pct) > Config.Alerting.lossThresholdPct then
        Success(Some(Alert(true, if pct < 0.0 then LossType else GainType, pct)))
      else
        Success(None)
  }

  /** The threshold is strict: exactly -5 percent raises no alert, and a drop
      from 0.40 by 0.03 is a loss alert at -7.5 percent. */
  lemma AlertExamples()
    ensures AlertDecision(Some(-0.02), Some(0.4)) == Success(None)
    ensures AlertDecision(Some(-0.03), Some(0.4)) == Success(Some(Alert(true, LossType, -7.5)))
    ensures AlertDecision(Some(0.01), Some(0.4)) == Success(None)
    ensures AlertDecision(None, Some(0.0)) == Success(None)
  {
  }

  /** `analyze_district` after the service calls. `cur`, `prev`, `chg` and
      `loss` are the four reductions; `images` the three image handles. */
  function AnalyzeDistrict(
    name: string, endDay: int,
    cur: Aggregates, prev: Aggregates, chg: Aggregates, loss: Aggregates,
    images: Images): (r: Result<DistrictResult, Error>)
    ensures name !in Config.DistrictKeys() ==> r == Failure(UnknownDistrict(name))
    ensures r.Success? <==>
              name in Config.DistrictKeys() && !(ChangeMeanKey in chg && !Truthy(Get(prev, MeanKey)))
    ensures r.Success? ==>
              && r.value.district == name
              && r.value.analysisDate == endDay
              && r.value.current.window.end == endDay
              && r.value.current.window.end - r.value.current.window.start == 7
              && r.value.previous.window.end == r.value.current.window.start
              && r.value.previous.window.end - r.value.previous.window.start == 7
    ensures r.Success? ==>
              && ReadFrom(r.value.current.mean, cur, MeanKey)
              && ReadFrom(r.value.current.std, cur, StdKey)
              && ReadFrom(r.value.current.p10, cur, P10Key)
              && ReadFrom(r.value.current.median, cur, P50Key)
              && ReadFrom(r.value.current.p90, cur, P90Key)
              && ReadFrom(r.value.previous.mean, prev, MeanKey)
              && ReadFrom(r.value.change.mean, chg, ChangeMeanKey)
              && ReadFrom(r.value.change.min, chg, ChangeMinKey)
              && ReadFrom(r.value.change.max, chg, ChangeMaxKey)
              && r.value.change.lossAreaHectares * 100.0 == Get(loss, LossSumKey).GetOr(0.0)
              && r.value.images == Some(images)
    ensures r.Success? ==>
              (r.value.alert.Some? <==>
                 ChangeMeanKey in chg && Abs(chg[ChangeMeanKey] / prev[MeanKey] * 100.0) > 5.0)
    ensures r.Success? && r.value.alert.Some? ==>
              && r.value.alert.value.triggered
              && r.value.alert.value.changePercentage == chg[ChangeMeanKey] / prev[MeanKey] * 100.0
              && (r.value.alert.value.kind == LossType <==> r.value.alert.value.changePercentage < 0.0)
              && r.value.alert.value.kind == (if r.value.alert.value.changePercentage < 0.0 then LossType else GainType)
  {
    if Config.Lookup(name).None? then Failure(UnknownDistrict(name))
    else
      var (cw, pw) := Windows(endDay);
      var base := DistrictResult(
        name, endDay,
        CurrentWeek(cw, Get(cur, MeanKey), Get(cur, StdKey), Get(cur, P10Key), Get(cur, P50Key), Get(cur, P90Key)),
        PreviousWeek(pw, Get(prev, MeanKey)),
        Change(Get(chg, ChangeMeanKey), Get(chg, ChangeMinKey), Get(chg, ChangeMaxKey), LossHectares(loss)),
        Some(images),
        None);
      match AlertDecision(base.change.mean, base.previous.mean)
      case Failure(e) => Failure(e)
      case Success(a) => Success(base.(alert := a))
  }

  /** The change percentage of `print_summary`: both values are tested for
      `None`, but a previous mean of zero still divides. */
  function SummaryChangePct(r: DistrictResult): (pct: Result<Option<real>, Error>)
    ensures pct.Failure? <==> r.change.mean.Some? && r.previous.mean == Some(0.0)
    ensures pct.Success? && pct.value.Some? <==> r.change.mean.Some? && Truthy(r.previous.mean)
    ensures pct.Success? && pct.value.Some? ==>
              pct.value.value * r.previous.mean.value == r.change.mean.value * 100.0
  {
    if r.change.mean.Some? && r.previous.mean.Some? then
      if r.previous.mean.value == 0.0 then Failure(ZeroDivision)
      else Success(Some(r.change.mean.value / r.previous.mean.value * 100.0))
    else Success(None)
  }

  /** On any result `analyze_district` returns, the summary's stronger guard
      never raises, and the percentage it prints is the alert's. */
  lemma SummaryAgreesWithAlert(
    name: string, endDay: int,
    cur: Aggregates, prev: Aggregates, chg: Aggregates, loss: Aggregates, images: Images)
    requires AnalyzeDistrict(name, endDay, cur, prev, chg, loss, images).Success?
    ensures var v := AnalyzeDistrict(name, endDay, cur, prev, chg, loss, images).value;
            && SummaryChangePct(v).Success?
            && (SummaryChangePct(v).value.Some? <==> v.change.mean.Some?)
            && (v.alert.Some? ==> SummaryChangePct(v).value == Some(v.alert.value.changePercentage))
  {
  }

  /** The JSON export of `main`: each record loses its `images` entry and
      keeps everything else. */
  function Export(rs: seq<Analyzed>): (out: seq<Analyzed>)
    ensures |out| == |rs|
    ensures forall k :: 0 <= k < |rs| ==>
              && out[k].district == rs[k].district
              && out[k].result.images.None?
              && out[k].result.district == rs[k].result.district
              && out[k].result.analysisDate == rs[k].result.analysisDate
              && out[k].result.current == rs[k].result.current
              && out[k].result.previous == rs[k].result.previous
              && out[k].result.change == rs[k].result.change
              && out[k].result.alert == rs[k].result.alert
  {
    seq(|rs|, k requires 0 <= k < |rs| => Analyzed(rs[k].district, rs[k].result.(images := None)))
  }

  /** Exporting twice is exporting once, and a record without images is
      exported unchanged. */
  lemma ExportIdempotent(rs: seq<Analyzed>)
    ensures Export(Export(rs)) == Export(rs)
    ensures (forall k :: 0 <= k < |rs| ==> rs[k].result.images.None?) ==> Export(rs) == rs
  {
  }

  /** The test the results loop applies to a district name: its analysis
      did not raise. */
  function Succeeds(analyze: string -> Result<DistrictResult, Error>): string -> bool {
    n => analyze(n).Success?
  }

  /** The results dictionary built by a loop that stores each successful
      analysis and skips each one that raised. Its entries are in insertion
      order, which is the order of `names`. */
  function Successes(names: seq<string>, analyze: string -> Result<DistrictResult, Error>): (rs: seq<Analyzed>)
    requires Distinct(names)
    ensures var ix := Filters.Kept(names, Succeeds(analyze));
            && |rs| == |ix|
            && forall m :: 0 <= m < |ix| ==> rs[m] == Analyzed(names[ix[m]], analyze(names[ix[m]]).value)
    ensures |rs| <= |names|
    ensures Distinct(Names(rs))
    ensures forall k :: 0 <= k < |rs| ==>
              rs[k].district in names && analyze(rs[k].district) == Success(rs[k].result)
    ensures forall n :: n in names ==> (analyze(n).Success? <==> n in Names(rs))
    decreases |names|
  {
    if |names| == 0 then []
    else
      var init := Successes(names[..|names| - 1], analyze);
      var last := names[|names| - 1];
      assert forall n :: n in names <==> n in names[..|names| - 1] || n == last;
      assert forall k :: 0 <= k < |names| - 1 ==> names[..|names| - 1][k] == names[k];
      match analyze(last)
      case Success(v) =>
        assert Names(init + [Analyzed(last, v)]) == Names(init) + [last];
        init + [Analyzed(last, v)]
      case Failure(_) => init
  }

  /** One more district: the dictionary grows by its result, or not at all
      when its analysis raised. */
  lemma SuccessesStep(names: seq<string>, i: nat, analyze: string -> Result<DistrictResult, Error>)
    requires Distinct(names) && i < |names|
    ensures Successes(names[..i + 1], analyze) ==
              Successes(names[..i], analyze) +
              (if analyze(names[i]).Success? then [Analyzed(names[i], analyze(names[i]).value)] else [])
  {
    assert names[..i + 1][..i] == names[..i];
  }

  /** The analysis loop itself, district by district. */
  method AnalyzeAll(names: seq<string>, analyze: string -> Result<DistrictResult, Error>) returns (rs: seq<Analyzed>)
    requires Distinct(names)
    ensures rs == Successes(names, analyze)
  {
    rs := [];
    var i := 0;
    while i < |names|
      invariant 0 <= i <= |names|
      invariant rs == Successes(names[..i], analyze)
    {
      SuccessesStep(names, i, analyze);
      match analyze(names[i]) {
        case Success(v) => rs := rs + [Analyzed(names[i], v)];
        case Failure(_) =>
      }
      i := i + 1;
    }
    assert names[..i] == names;
  }

  /** `main`: analyze Jodhpur and Bikaner, keep the districts that did not
      raise, and strip the images before saving. */
  method MonitorMain(analyze: string -> Result<DistrictResult, Error>) returns (saved: seq<Analyzed>)
    ensures var names := ["Jodhpur", "Bikaner"];
            var ix := Filters.Kept(names, Succeeds(analyze));
            && |saved| == |ix|
            && forall m :: 0 <= m < |ix| ==>
                 saved[m] == Analyzed(names[ix[m]], analyze(names[ix[m]]).value.(images := None))
    ensures Distinct(Names(saved))
    ensures forall d :: d in ["Jodhpur", "Bikaner"] ==> (analyze(d).Success? <==> d in Names(saved))
    ensures forall k :: 0 <= k < |saved| ==>
              && saved[k].district in ["Jodhpur", "Bikaner"]
              && saved[k].result.images.None?
              && analyze(saved[k].district).Success?
              && saved[k].result == analyze(saved[k].district).value.(images := None)
  {
    var results := AnalyzeAll(["Jodhpur", "Bikaner"], analyze);
    saved := Export(results);
    assert Names(saved) == Names(results);
  }
}

=== FILE: records.dfy ===
/** The per-district analysis record shared by the monitor, the command-line
    tool, the dashboard, the demo generator and the workflow script. Each
    Python dictionary of the record becomes a datatype; each statistic that
    may be `None` is an `Option<real>`; dates are day numbers. */
module Records {
  import opened Wrappers

  /** The two alert type strings the producers write. */
  const LossType: string := "vegetation_loss"
  const GainType: string := "vegetation_gain"

  /** A reporting window from `start` to `end`, both day numbers. */
  datatype Window = Window(start: int, end: int)

  /** The `current_week` block. */
  datatype CurrentWeek = CurrentWeek(
    window: Window,
    mean: Option<real>,
    std: Option<real>,
    p10: Option<real>,
    median: Option<real>,
    p90: Option<real>)

  /** The `previous_week` block. */
  datatype PreviousWeek = PreviousWeek(window: Window, mean: Option<real>)

  /** The `change` block; the loss area is always a number. */
  datatype Change = Change(
    mean: Option<real>,
    min: Option<real>,
    max: Option<real>,
    lossAreaHectares: real)

  /** The `alert` block; `kind` is the `type` string. The formatted
      `message` is not modelled. */
  datatype Alert = Alert(triggered: bool, kind: string, changePercentage: real)

  /** Handles of the three server-side images; only their presence matters. */
  datatype Images = Images(current: nat, previous: nat, change: nat)

  /** One district's result. `images` and `alert` are `None` when the key is
      absent from the dictionary. */
  datatype DistrictResult = DistrictResult(
    district: string,
    analysisDate: int,
    current: CurrentWeek,
    previous: PreviousWeek,
    change: Change,
    images: Option<Images>,
    alert: Option<Alert>)

  /** A district name paired with its result: one entry of a results dictionary. */
  datatype Analyzed = Analyzed(district: string, result: DistrictResult)

  /** The exceptions the decision layer can raise. `NoneOperand` is the
      `TypeError` of arithmetic, comparison or numeric formatting on `None`. */
  datatype Error = UnknownDistrict(name: string) | NoneOperand | ZeroDivision | MissingKey(key: string)

  /** Python truthiness of an optional float: `None` and `0.0` are false. */
  predicate Truthy(v: Option<real>) {
    v.Some? && v.value != 0.0
  }

  function Abs(x: real): real {
    if x < 0.0 then -x else x
  }

  /** The record carries an alert whose `triggered` flag is set. */
  predicate HasTriggeredAlert(r: DistrictResult) {
    r.alert.Some? && r.alert.value.triggered
  }

  /** The districts of a results sequence, in order. */
  function Names(rs: seq<Analyzed>): (ns: seq<string>)
    ensures |ns| == |rs|
    ensures forall k :: 0 <= k < |rs| ==> ns[k] == rs[k].district
  {
    seq(|rs|, k requires 0 <= k < |rs| => rs[k].district)
  }

  /** No key occurs twice (the keys of a Python dictionary). */
  predicate Distinct(names: seq<string>) {
    forall i, j :: 0 <= i < j < |names| ==> names[i] != names[j]
  }

  /** `results[name]` on a results dictionary; `None` where Python raises
      `KeyError`. */
  function Find(rs: seq<Analyzed>, name: string): (r: Option<DistrictResult>)
    ensures r.Some? <==> name in Names(rs)
    ensures r.Some? ==> exists k :: 0 <= k < |rs| && rs[k] == Analyzed(name, r.value)
  {
    if |rs| == 0 then None
    else if rs[0].district == name then
      assert rs[0] == Analyzed(name, rs[0].result);
      Some(rs[0].result)
    else
      var r := Find(rs[1..], name);
      assert Names(rs) == [rs[0].district] + Names(rs[1..]);
      if r.Some? then
        var k :| 0 <= k < |rs[1..]| && rs[1..][k] == Analyzed(name, r.value);
        assert rs[k + 1] == Analyzed(name, r.value);
        r
      else r
  }
}

=== FILE: workflow.dfy ===
/** The aggregation steps of the example script `complete_workflow.py`: the
    results dictionary, the two-district NDVI comparison, the alert summary
    flag, the total loss area and the three-tier recommendation. The export
    step is `Monitor.Export`. */
module Workflow {
  import opened Wrappers
  import opened Records
  import Monitor
  import Demo

  /** Step 3: analyze Jodhpur and Bikaner; a district whose analysis raises
      is left out, the other is kept. */
  method AnalyzeDistricts(analyze: string -> Result<DistrictResult, Error>) returns (rs: seq<Analyzed>)
    ensures |rs| <= 2 && Distinct(Names(rs))
    ensures forall d :: d in ["Jodhpur", "Bikaner"] ==> (analyze(d).Success? <==> d in Names(rs))
    ensures forall k :: 0 <= k < |rs| ==>
              rs[k].district in ["Jodhpur", "Bikaner"] && analyze(rs[k].district) == Success(rs[k].result)
  {
    rs := Monitor.AnalyzeAll(["Jodhpur", "Bikaner"], analyze);
  }

  datatype Comparison = JodhpurHigher(diff: real) | BikanerHigher(diff: real)

  /** Step 5: only with exactly two results; the difference is larger minus
      smaller, and a tie is reported for Bikaner. Indexing a missing
      district raises `KeyError`; formatting a `None` mean raises. */
  function CompareNdvi(rs: seq<Analyzed>): (r: Result<Option<Comparison>, Error>)
    ensures |rs| != 2 ==> r == Success(None)
    ensures |rs| == 2 ==>
              var j := Find(rs, "Jodhpur");
              var b := Find(rs, "Bikaner");
              && (r.Failure? <==>
                    j.None? || b.None? || j.value.current.mean.None? || b.value.current.mean.None?)
              && (r.Success? ==>
                    && r.value.Some?
                    && (r.value.value.JodhpurHigher? <==> j.value.current.mean.value > b.value.current.mean.value)
                    && r.value.value.diff == Abs(j.value.current.mean.value - b.value.current.mean.value))
    ensures r.Success? && r.value.Some? ==> r.value.value.diff >= 0.0
  {
    if |rs| != 2 then Success(None)
    else
      match (Find(rs, "Jodhpur"), Find(rs, "Bikaner"))
      case (None, _) => Failure(MissingKey("Jodhpur"))
      case (_, None) => Failure(MissingKey("Bikaner"))
      case (Some(j), Some(b)) =>
        if j.current.mean.None? || b.current.mean.None? then Failure(NoneOperand)
        else
          var jm := j.current.mean.value;
          var bm := b.current.mean.value;
          if jm > bm then Success(Some(JodhpurHigher(jm - bm)))
          else Success(Some(BikanerHigher(bm - jm)))
  }

  /** Some result carries a triggered alert. */
  predicate AnyAlert(rs: seq<Analyzed>) {
    exists k :: 0 <= k < |rs| && HasTriggeredAlert(rs[k].result)
  }

  /** Step 6: the `alerts_found` flag of the summary loop. */
  method AlertsFound(rs: seq<Analyzed>) returns (found: bool)
    ensures found <==> exists k :: 0 <= k < |rs| && rs[k].result.alert.Some? && rs[k].result.alert.value.triggered
  {
    found := false;
    var i := 0;
    while i < |rs|
      invariant 0 <= i <= |rs|
      invariant found <==> exists k :: 0 <= k < i && HasTriggeredAlert(rs[k].result)
    {
      if rs[i].result.alert.Some? && rs[i].result.alert.value.triggered {
        found := true;
      }
      i := i + 1;
    }
  }

  /** Step 8's total, as a reference sum. */
  function TotalLoss(rs: seq<Analyzed>): (total: real)
    ensures (forall k :: 0 <= k < |rs| ==> rs[k].result.change.lossAreaHectares >= 0.0) ==> total >= 0.0
  {
    if |rs| == 0 then 0.0 else rs[0].result.change.lossAreaHectares + TotalLoss(rs[1..])
  }

  lemma {:induction false} TotalLossAppend(rs: seq<Analyzed>, x: Analyzed)
    ensures TotalLoss(rs + [x]) == TotalLoss(rs) + x.result.change.lossAreaHectares
  {
    if |rs| > 0 {
      assert (rs + [x])[1..] == rs[1..] + [x];
      TotalLossAppend(rs[1..], x);
    }
  }

  /** With non-negative areas, no district's area exceeds the total. */
  lemma {:induction false} TotalLossBoundsEach(rs: seq<Analyzed>, k: nat)
    requires k < |rs|
    requires forall i :: 0 <= i < |rs| ==> rs[i].result.change.lossAreaHectares >= 0.0
    ensures rs[k].result.change.lossAreaHectares <= TotalLoss(rs)
  {
    if k > 0 {
      TotalLossBoundsEach(rs[1..], k - 1);
    }
  }

  /** Step 8: `sum(...)` over the results, left to right. */
  method SumLossArea(rs: seq<Analyzed>) returns (total: real)
    ensures total == TotalLoss(rs)
  {
    total := 0.0;
    var i := 0;
    while i < |rs|
      invariant 0 <= i <= |rs|
      invariant total == TotalLoss(rs[..i])
    {
      TotalLossAppend(rs[..i], rs[i]);
      assert rs[..i + 1] == rs[..i] + [rs[i]];
      total := total + rs[i].result.change.lossAreaHectares;
      i := i + 1;
    }
    assert rs[..i] == rs;
  }

  /** Exporting changes neither the alert summary nor the total loss. */
  lemma {:induction false} ExportKeepsSummary(rs: seq<Analyzed>)
    ensures AnyAlert(Monitor.Export(rs)) <==> AnyAlert(rs)
    ensures TotalLoss(Monitor.Export(rs)) == TotalLoss(rs)
  {
    var out := Monitor.Export(rs);
    assert forall k :: 0 <= k < |rs| ==> HasTriggeredAlert(out[k].result) == HasTriggeredAlert(rs[k].result);
    if |rs| > 0 {
      assert out[1..] == Monitor.Export(rs[1..]);
      ExportKeepsSummary(rs[1..]);
    }
  }

  datatype Recommendation = SignificantLoss | ModerateLoss | NormalRange

  /** Step 9: strict boundaries at 50 and 10 hectares. */
  function Recommend(total: real): (rec: Recommendation)
    ensures rec == SignificantLoss <==> total > 50.0
    ensures rec == ModerateLoss <==> 10.0 < total <= 50.0
    ensures rec == NormalRange <==> total <= 10.0
  {
    if total > 50.0 then SignificantLoss
    else if total > 10.0 then ModerateLoss
    else NormalRange
  }

  function Severity(rec: Recommendation): nat {
    match rec
    case NormalRange => 0
    case ModerateLoss => 1
    case SignificantLoss => 2
  }

  /** More loss never lowers the recommendation. */
  lemma RecommendMonotone(a: real, b: real)
    requires a <= b
    ensures Severity(Recommend(a)) <= Severity(Recommend(b))
  {
  }

  /** An observation across two parts of the application: the script runs
      the live monitor, but if its recommendation step is fed the demo
      generator's data, a simulated loss scenario in either district always
      yields the significant-loss recommendation, and without one the
      recommendation is never significant. */
  lemma DemoRecommendation(draws: seq<Demo.Draws>, endDay: int)
    requires |draws| == |Demo.DemoDistricts()|
    requires forall k :: 0 <= k < |draws| ==> Demo.ValidDraws(draws[k])
    ensures Recommend(TotalLoss(Demo.GenerateDemoData(draws, endDay))) == SignificantLoss <==>
              Demo.LossScenario(draws[0]) || Demo.LossScenario(draws[1])
  {
    var rs := Demo.GenerateDemoData(draws, endDay);
    assert TotalLoss(rs[1..][1..]) == 0.0;
    assert TotalLoss(rs[1..]) == rs[1].result.change.lossAreaHectares;
    assert TotalLoss(rs) == rs[0].result.change.lossAreaHectares + rs[1].result.change.lossAreaHectares;
  }
}

=== FILE: wrappers.dfy ===
/** Optional values and error-carrying results, standing for Python's `None`
    and for exceptions that a caller may catch. */
module Wrappers {

  /** `None` is Python's `None` (or an absent dictionary key read with `.get`). */
  datatype Option<+T> = None | Some(value: T) {

    /** Returns the value in `Some`, or `default` for `None`. */
    function GetOr(default: T): T {
      match this
      case Some(v) => v
      case None => default
    }
  }

  /** `Failure` stands for a raised exception. */
  datatype Result<+T, +E> = Success(value: T) | Failure(error: E)
}
